=== FILE: README.md ===
# Idle sweep: a Dafny model

The repository is an SDL2 desktop demo. Its window shows a procedurally
animated background behind a mock emulator menu bar. Two C files hold the
logic that has behaviour worth stating:

- `main_unico.c` draws a grey diagonal sweep. Every frame, each pixel of the
  800x600 buffer is coloured by a closed integer formula in `x + y` and the
  frame counter. The result is a triangle wave of period 128 whose crest
  diagonal is lit green, blue or red, changing every 60 frames.
- `idle_sweep_only.c` animates three colour tracks. Each track eases from a
  start colour to a random target over 3 seconds and then re-targets, carrying
  over the leftover time. A mouse click swaps between a Dark and a Light theme,
  and the theme decides which track feeds which colour role. Every frame the
  program fills a `w*h` buffer with opaque quantised pixels.

The model is written in pure functions over immutable values. Both fill
loops are modelled by one method, `Raster.Fill`, which carries the loop
invariants; `Sweep.RenderSweep` and `Idle.RenderIdle` call it.

| module (file) | models |
|---|---|
| `CInt` (cint.dfy) | C's truncating `/` and `%`, `abs`, and the conversion to `Uint8` |
| `Pixel` (pixel.dfy) | bytes, unsigned 32-bit words, ARGB packing and unpacking |
| `Raster` (raster.dfy) | the row-major slot `y*w + x` and the nested fill loop |
| `Sweep` (sweep.dfy) | the per-pixel sweep of `main_unico.c` |
| `Scalar` (scalar.dfy) | `lerp_f`, `smoothstep_f`, `fcol_to_u8` |
| `ColorAnim` (color_anim.dfy) | `ColorAnim` tracks: pick, init, update, sample |
| `Theme` (theme.dfy) | the two themes, the click toggle, the track-to-channel table |
| `Idle` (idle.dfy) | the frame delta, one loop step, channel selection, the idle fill |

Modelling choices:

- `float` is modelled by `real`. This is an abstraction: the proofs hold for
  exact arithmetic, not for IEEE rounding.
- Every `(float)rand() / RAND_MAX` is a caller-supplied number in [0, 1]. Each
  track receives one candidate triple per frame and uses it only if it wraps.
  The order in which the C program consumes `rand()` values across tracks is
  therefore not fixed; any values in [0, 1] are allowed.
- Integers are unbounded. C's truncating division and remainder, the
  `Uint8` conversions and `+=`, and the `Uint32` tick subtraction are all
  written out explicitly.
- Packing builds an unsigned 32-bit word. Each byte shifted by k bits is that
  byte times 2^k, and the lanes do not overlap, so the OR equals the sum.
- The `sinf` shading of `idle_sweep_only.c` (waves, tint, intensity, pulse) is
  a function parameter `shade` of `Idle.RenderIdle`. The fill models the slot,
  alpha and clamp structure around it.
- Themes: a click (idle_sweep_only.c:164-166) swaps `currentTheme` to the
  other template at once. `update_color_anims` (lines 89-102) advances every
  track by the plain frame delta, with no speed factor. A `Theme` (lines
  39-44) holds a name, one accent colour and two scalars.

## Model

| member | source | states |
|---|---|---|
| CInt.Abs | main_unico.c:82 | the result is the argument or its negation, and is non-negative |
| CInt.CRem | main_unico.c:79 | C's `%` by a positive constant: the magnitude is below the divisor and the sign follows the dividend |
| CInt.CDiv | main_unico.c:86 | C's `/` by a positive constant, tied to `CRem` by quotient * divisor + remainder = dividend |
| CInt.NonNegativeAgrees | main_unico.c:83 | on a non-negative dividend, C's quotient and remainder equal the Euclidean ones |
| CInt.ToU8 | main_unico.c:83-91 | conversion to `Uint8` lands in 0..255, is the identity on 0..255 and is congruent to its input mod 256 |
| Pixel.Pack | main_unico.c:94-95 | each of alpha, red, green, blue reads back unchanged from bits 24-31, 16-23, 8-15 and 0-7 |
| Pixel.PackOpaque | main_unico.c:94-95 | the packed pixel has alpha 0xFF and unpacks to the given colour |
| Pixel.UnpackPack | main_unico.c:94-95 | every 32-bit word is the packing of its own four lanes, so packing is a bijection |
| Pixel.PackInjective | main_unico.c:94-95 | two byte quadruples that pack to the same word are equal |
| Raster.IndexInBounds | main_unico.c:77-94 | for 0 <= x < w and 0 <= y < h, slot y*w + x lies in [0, w*h) |
| Raster.IndexDecode | idle_sweep_only.c:203-227 | column and row come back from the slot as remainder and quotient by the width |
| Raster.IndexInjective | idle_sweep_only.c:203-227 | distinct pixels of a row-major buffer have distinct slots |
| Raster.IndexCovers | idle_sweep_only.c:203-227 | every slot in [0, w*h) is the slot of some pixel inside the image |
| Raster.Fill | idle_sweep_only.c:203-233 | the nested loop writes, in bounds, the pixel of (x, y) into slot y*w + x for every pixel, and its writes are exactly 0, 1, ..., w*h-1 in order, so each slot is written once |
| Sweep.Raw | main_unico.c:79-80 | for all integers x, y, frame, `raw` is in [0, 127] and equals the Euclidean (x + y - frame) mod 128 |
| Sweep.Tri | main_unico.c:82 | `tri` is in [0, 64]; it is 64 exactly when raw = 0 and 0 exactly when raw = 64 |
| Sweep.Level | main_unico.c:83 | `v = tri / 4` is the floor of tri/4 and at most 16 |
| Sweep.ColorPhase | main_unico.c:86 | `(frame / 60) % 3` in C arithmetic lies strictly between -3 and 3 for every frame, and is non-negative for frame >= 0 |
| Sweep.NegativeFramePhases | main_unico.c:86-91 | with C's truncating arithmetic, frames -1 and -59 have phase 0 (the crest is lit green), frames -60 and -119 have phase -1, and frames -120 and -179 have phase -2, where the crest stays grey at 16 |
| Sweep.ColorPhaseOfFrame | main_unico.c:86 | for a frame counter >= 0 (it starts at 0 and only increments), `colorPhase` is (frame / 60) mod 3, in {0, 1, 2} |
| Sweep.ColorPhaseConstantOnBlock | main_unico.c:86 | two frames of the same 60-frame block have the same phase |
| Sweep.ColorPhaseCycles | main_unico.c:86 | the phase repeats every 180 frames |
| Sweep.SweepColor | main_unico.c:79-92 | no channel ever exceeds 112, and every pixel off the crest diagonal ((x + y - frame) mod 128 != 0) is grey |
| Sweep.ColourAt | main_unico.c:82-92 | no channel exceeds 112; for raw != 0 the colour is grey at level <= 15; for raw = 0 and a non-negative phase the channels are 16, 16, 112 in some order; for raw = 0 and a negative phase (reachable only from some negative frames) the pixel stays grey at 16 |
| Sweep.LevelFacts | main_unico.c:82-88 | the test `tri % 64 == 0` holds exactly for raw = 0 and raw = 64; the level is 16 at raw = 0, 0 at raw = 64 and at most 15 elsewhere |
| Sweep.SweepPixel | main_unico.c:94-95 | the written pixel is opaque and unpacks to the sweep colour |
| Sweep.BoostNeverWraps | main_unico.c:83-91 | the `Uint8 +=` of the crest never wraps: v + 6v is at most 112 |
| Sweep.GreyOffCrest | main_unico.c:85-92 | whenever raw != 0 the pixel is grey at level abs(raw - 64) / 4 <= 15; this includes raw = 64, where the boost adds 0 |
| Sweep.CrestColour | main_unico.c:88-92 | on the crest (raw = 0) exactly one channel is 112 and the other two are 16: green in phase 0, blue in phase 1, red in phase 2 |
| Sweep.ConstantOnDiagonals | main_unico.c:79 | the pixel depends on (x, y) only through x + y |
| Sweep.SweepTravels | main_unico.c:79-86 | while the phase holds, the next frame shows the picture shifted one pixel along x |
| Sweep.RawPeriodic | main_unico.c:79-80 | `raw` repeats every 128 frames |
| Sweep.SweepPeriodic | main_unico.c:79-92 | for frame >= 0 the whole picture repeats every 5760 frames |
| Sweep.RenderSweep | main_unico.c:77-97 | the 800x600 buffer holds at slot y*800 + x the sweep pixel of (x, y), and every slot has alpha 0xFF |
| Scalar.Lerp | idle_sweep_only.c:16-18 | t = 0 gives a, t = 1 gives b, and t in [0, 1] stays between a and b |
| Scalar.LerpMonotone | idle_sweep_only.c:16-18 | for t <= t' in [0, 1] the later point lies between the earlier one and b |
| Scalar.Smoothstep | idle_sweep_only.c:20-24 | exactly 0 for t <= 0, exactly 1 for t >= 1, and always in [0, 1] |
| Scalar.SmoothstepMonotone | idle_sweep_only.c:20-24 | the ease never decreases |
| Scalar.SmoothstepSymmetric | idle_sweep_only.c:20-24 | ease(1 - t) = 1 - ease(t) |
| Scalar.SmoothstepLipschitz | idle_sweep_only.c:20-24 | for t <= t' the ease grows by at least 0 and at most 1.5 (t' - t), 1.5 being its slope at t = 1/2 |
| Scalar.EasedLerpLipschitz | idle_sweep_only.c:16-24 | when t grows to t', the lerp from a to b at the eased t moves by at most 1.5 (t' - t) times the distance from a to b |
| Scalar.TruncToInt | idle_sweep_only.c:27 | the float-to-int cast truncates toward zero |
| Scalar.FcolToU8 | idle_sweep_only.c:26-31 | always 0..255; 0 for v <= 0; 255 for v >= 1; on [0, 1] the round-half-up of 255v |
| Scalar.FcolToU8Monotone | idle_sweep_only.c:26-31 | quantisation preserves the order of intensities |
| ColorAnim.PickNewTarget | idle_sweep_only.c:74-79 | with draws in [0, 1] every target channel is in [0.15, 1]; t becomes 0; start and duration are unchanged |
| ColorAnim.PickNewTargetCovers | idle_sweep_only.c:74-79 | every colour with channels in [0.15, 1] is the target of some draw in [0, 1], so that range is exact |
| ColorAnim.InitTrack | idle_sweep_only.c:81-87 | a fresh track starts at (0.5, 0.5, 0.5) with the given duration and t = 0; with d > 0 and draws in [0, 1] it is well formed |
| ColorAnim.InitColorAnims | idle_sweep_only.c:81-87 | three tracks, each with start (0.5, 0.5, 0.5), the given duration, t = 0 and targets in [0.15, 1] |
| ColorAnim.UpdateTrack | idle_sweep_only.c:91-101 | the duration never changes; from 0 <= t <= duration with delta >= 0 and draws in [0, 1], the track stays well formed |
| ColorAnim.UpdateWithoutWrap | idle_sweep_only.c:92-93 | when t + delta < duration, only t changes, to t + delta |
| ColorAnim.UpdateWithWrap | idle_sweep_only.c:93-101 | on a wrap, start becomes the old target, the target is a fresh pick, and t is min(t + delta - duration, duration), overriding the reset in `pick_new_target` |
| ColorAnim.FullPeriodRetargetsOnce | idle_sweep_only.c:92-100 | a fresh track advanced by exactly its duration ends at t = 0 with start equal to its old target |
| ColorAnim.GetAnimColor | idle_sweep_only.c:105-111 | each channel lies between start and target; with duration > 0 it equals start for t <= 0 and target for t >= duration (continuity in t: SampleLipschitz) |
| ColorAnim.Blend | idle_sweep_only.c:108-110 | for an eased fraction in [0, 1], each channel lies between the two end colours |
| ColorAnim.Progress | idle_sweep_only.c:106 | tt times the duration gives back the elapsed time t |
| ColorAnim.ProgressMonotone | idle_sweep_only.c:106 | with a positive duration, tt never decreases as t grows |
| ColorAnim.ProgressAtEnd | idle_sweep_only.c:106 | at t = duration, tt is exactly 1 |
| ColorAnim.BlendLipschitz | idle_sweep_only.c:107-110 | when the fraction grows from u to u', each channel of the eased blend moves by at most 1.5 (u' - u) times that channel's distance from a to b |
| ColorAnim.SampleLipschitz | idle_sweep_only.c:105-111 | advancing t to t' moves each channel of the sampled colour by at most 1.5 (t'/duration - t/duration) times the channel's distance from start to target, so the colour never jumps |
| ColorAnim.SampleInTargetRange | idle_sweep_only.c:105-111 | a well-formed track samples to a colour with channels in [0.15, 1] |
| ColorAnim.SampleApproachesTarget | idle_sweep_only.c:105-111 | as elapsed time grows, the sampled colour only moves toward the target |
| ColorAnim.WrapIsContinuous | idle_sweep_only.c:93-99 | on a wrap, the new transition starts from the colour the old one ended on |
| ColorAnim.ExactWrapIsContinuous | idle_sweep_only.c:92-111 | with zero leftover, the colour after the update equals the old transition's colour at t = duration, and differs from the colour shown before the update by at most 1.5 (1 - t/duration) times each channel's distance from start to target |
| ColorAnim.UpdateColorAnims | idle_sweep_only.c:89-103 | keeps the track count and durations, and keeps all tracks well formed for delta >= 0 and draws in [0, 1] |
| ColorAnim.Run | idle_sweep_only.c:154-185 | after any number of updates with non-negative deltas and draws in [0, 1], every track still has 0 <= t <= duration and ends in [0.15, 1] |
| Theme.Toggle | idle_sweep_only.c:164-166 | a click always yields one of the two themes, with the other name |
| Theme.ToggleInvolution | idle_sweep_only.c:164-166 | on Dark and Light, toggling changes the theme and toggling twice restores it |
| Theme.ToggleTimes | idle_sweep_only.c:161-167 | after at least one click the theme is one of the two templates |
| Theme.ToggleTimesParity | idle_sweep_only.c:161-167 | n clicks leave the theme unchanged when n is even and toggle it once when n is odd |
| Theme.ChannelTracks | idle_sweep_only.c:189-197 | each theme's track table is a permutation of {0, 1, 2} and its own inverse |
| Theme.ThemesSwapRedAndBlue | idle_sweep_only.c:189-197 | Dark and Light share the green track and swap the red and blue tracks |
| Idle.ElapsedMs | idle_sweep_only.c:155-156 | the unsigned tick difference is now - last, plus 2^32 when the counter wrapped |
| Idle.FrameDelta | idle_sweep_only.c:155-157 | the frame step is in [0, 0.1], never above the elapsed time, and equal to it below the clamp |
| Idle.InitIdle | idle_sweep_only.c:148-149 | the loop starts on the Dark theme, in a valid state when draws are in [0, 1] |
| Idle.Step | idle_sweep_only.c:161-185 | one pass of the loop keeps the state valid: a built-in theme and three well-formed tracks |
| Idle.StepTheme | idle_sweep_only.c:161-185 | the theme after a pass differs from the one before exactly when the click count is odd |
| Idle.RunFrames | idle_sweep_only.c:154-185 | any run of frames from a valid state, with draws in [0, 1], stays valid |
| Idle.SelectAnimColors | idle_sweep_only.c:186-197 | animR, animG and animB are the samples of the three tracks, each used once (as a multiset they equal the three samples), animG is always track 1's sample, and for well-formed tracks all three have channels in [0.15, 1] |
| Idle.SelectionFollowsTrackTable | idle_sweep_only.c:188-197 | the selection agrees with the theme's track table: role i receives the sample of track `ChannelTracks(theme)[i]` |
| Idle.SelectionSwapsRedAndBlue | idle_sweep_only.c:189-197 | switching theme swaps animR and animB and keeps animG |
| Idle.IdlePixel | idle_sweep_only.c:227-231 | the written pixel has alpha 0xFF and each channel is `fcol_to_u8` of the shaded value |
| Idle.RenderIdle | idle_sweep_only.c:203-233 | the w-by-h buffer holds at slot y*w + x the quantised opaque pixel of (x, y), and every slot has alpha 0xFF |

## Left out

- SDL and SDL_ttf calls are I/O and platform plumbing: window, renderer and texture creation, `SDL_UpdateTexture`, event polling, `SDL_Delay` and `SDL_GetTicks`. Tick readings become parameters of `Idle.FrameDelta`, and clicks become a count per frame.
- `drawMenuBar` (main_unico.c:10-34) is left out: its layout depends on font metrics returned by the external text renderer.
- The `sinf` waves, accent tint, intensity and pulse (idle_sweep_only.c:204-225) are transcendental floating-point arithmetic. They enter `Idle.RenderIdle` as the function `shade`.
- The normalisation `x / (w - 1)` (idle_sweep_only.c:204, 206) is not modelled. In C it divides by zero on a one-pixel axis.
- `rand`, `srand` and `time` are not modelled; random draws are parameters in [0, 1].
- Buffer reallocation on resize (idle_sweep_only.c:168-182) is memory plumbing, and the program does not check `malloc` for failure. The fills take the previous buffer contents as `init`.
- IEEE `float` behaviour is not modelled: rounding, NaN and infinity, and the undefined float-to-int cast of out-of-range values. Everything uses `real`.
- ColorAnim.GetAnimColor: requires a non-zero duration, because the float division by zero in C produces an infinity or NaN that `real` cannot represent. The program always uses 3 seconds.
- The signed `int` packing `(0xFF << 24)` / `(255 << 24)` (main_unico.c:95, idle_sweep_only.c:228) overflows `int` in C. The model packs into an unsigned word, the value the texture receives.
- The frame counter of main_unico.c is an `int` that overflows after 2^31 frames. The model's counter is unbounded, and the periodicity lemmas assume frame >= 0.
- Sweep.ColorPhaseOfFrame: states the phase only for frame >= 0, the values the counter takes. For a negative frame, C's truncating arithmetic can give a phase of -1 or -2 (frames -60 to -179, for example), and then no channel is lit; frames -59 to -1 still give phase 0. `Sweep.NegativeFramePhases` states these cases.

=== FILE: cint.dfy ===
/** C integer arithmetic on unbounded integers.

    C's `/` and `%` on `int` truncate toward zero, whereas Dafny's are
    Euclidean.  The sweep in main_unico.c takes `%` of a possibly negative
    dividend, so the C behaviour is written out here.  Every divisor in the
    modelled code is a positive constant, which is all these functions
    accept. */
module CInt {

  function Abs(a: int): (r: nat)
    ensures r == a || r == -a
  {
    if a < 0 then -a else a
  }

  /** C's `a % b`: the remainder takes the sign of the dividend. */
  function CRem(a: int, b: int): (r: int)
    requires b > 0
    ensures -b < r < b
    ensures a >= 0 ==> r >= 0
    ensures a <= 0 ==> r <= 0
  {
    var m := Abs(a) % b;
    if a < 0 then -m else m
  }

  /** C's `a / b`: the quotient truncated toward zero; together with `CRem`
      it satisfies the identity of section 6.5.5 of ISO/IEC 9899. */
  function CDiv(a: int, b: int): (q: int)
    requires b > 0
    ensures q * b + CRem(a, b) == a
  {
    var m := Abs(a) / b;
    assert m * b + Abs(a) % b == Abs(a);
    if a < 0 then -m else m
  }

  /** On a non-negative dividend C and Dafny agree. */
  lemma NonNegativeAgrees(a: int, b: int)
    requires a >= 0 && b > 0
    ensures CDiv(a, b) == a / b && CRem(a, b) == a % b
  {
  }

  /** C's conversion of an `int` to `Uint8`: reduction modulo 256. */
  function ToU8(n: int): (r: int)
    ensures 0 <= r < 256
    ensures 0 <= n < 256 ==> r == n
    ensures (r - n) % 256 == 0
  {
    n % 256
  }
}

=== FILE: color_anim.dfy ===
/** The colour-animation tracks of idle_sweep_only.c (`ColorAnim`,
    `pick_new_target`, `init_color_anims`, `update_color_anims`,
    `get_anim_color`).

    Each track drifts from a start colour to a random target colour over a
    fixed duration; when the time runs out the target becomes the new start,
    a fresh target is drawn and the overshoot carries over.  `float` is
    modelled by `real`, and each `(float)rand() / RAND_MAX` by a number in
    [0, 1] that the caller supplies. */
module ColorAnim {

  import opened Scalar

  /** Three colour channels, each nominally in [0, 1]. */
  datatype Rgb = Rgb(r: real, g: real, b: real)

  /** The three channels of an Rgb. */
  datatype Channel = Red | Green | Blue

  /** Channel k of c. */
  function Chan(c: Rgb, k: Channel): real
  {
    match k
    case Red => c.r
    case Green => c.g
    case Blue => c.b
  }

  /** `ColorAnim` (lines 64-69): start (sr, sg, sb), target (tr, tg, tb),
      elapsed time t and duration. */
  datatype Track = Track(start: Rgb, target: Rgb, t: real, duration: real)

  /** `NUM_COLOR_ANIMS` (line 71). */
  const NUM_COLOR_ANIMS := 3

  /** Targets are kept away from black: each channel is at least this. */
  const MIN_TARGET := 0.15
  /** The width of the target range [MIN_TARGET, 1]. */
  const TARGET_SPAN := 0.85
  /** The grey every track starts from (line 83). */
  const MID_GREY := Rgb(0.5, 0.5, 0.5)

  /** A triple of `rand() / RAND_MAX` values. */
  predicate IsDraw(d: Rgb)
  {
    0.0 <= d.r <= 1.0 && 0.0 <= d.g <= 1.0 && 0.0 <= d.b <= 1.0
  }

  /** Every channel in [MIN_TARGET, 1], the range of `pick_new_target`. */
  predicate InTargetRange(c: Rgb)
  {
    MIN_TARGET <= c.r <= 1.0 && MIN_TARGET <= c.g <= 1.0 && MIN_TARGET <= c.b <= 1.0
  }

  /** Every channel of c lies between the same channel of a and of b. */
  predicate ChannelsBetween(a: Rgb, b: Rgb, c: Rgb)
  {
    Between(a.r, b.r, c.r) && Between(a.g, b.g, c.g) && Between(a.b, b.b, c.b)
  }

  /** The state the program keeps every track in: a positive duration,
      elapsed time within it, and both end colours in the target range. */
  predicate WellFormed(ca: Track)
  {
    && 0.0 < ca.duration
    && 0.0 <= ca.t <= ca.duration
    && InTargetRange(ca.start)
    && InTargetRange(ca.target)
  }

  function TargetChannel(draw: real): (c: real)
  {
    MIN_TARGET + draw * TARGET_SPAN
  }

  /** `pick_new_target` (lines 74-79): a fresh target from one draw per
      channel, and the elapsed time reset; nothing else changes. */
  function PickNewTarget(ca: Track, d: Rgb): (r: Track)
    ensures r.start == ca.start && r.duration == ca.duration
    ensures r.t == 0.0
    ensures IsDraw(d) ==> InTargetRange(r.target)
  {
    Track(ca.start, Rgb(TargetChannel(d.r), TargetChannel(d.g), TargetChannel(d.b)), 0.0, ca.duration)
  }

  /** The draw that yields a given target. */
  function DrawFor(c: Rgb): (d: Rgb)
  {
    Rgb((c.r - MIN_TARGET) / TARGET_SPAN, (c.g - MIN_TARGET) / TARGET_SPAN, (c.b - MIN_TARGET) / TARGET_SPAN)
  }

  /** Conversely every colour of the target range is the target picked for
      some draw, so [0.15, 1] per channel is exactly the range of
      `pick_new_target`. */
  lemma PickNewTargetCovers(ca: Track, c: Rgb)
    requires InTargetRange(c)
    ensures IsDraw(DrawFor(c))
    ensures PickNewTarget(ca, DrawFor(c)).target == c
  {
  }

  /** One track of `init_color_anims` (lines 82-86) before its targets are
      drawn: mid-grey start, the given duration, and the zeroes of static
      storage elsewhere. */
  function InitTrack(duration: real, d: Rgb): (ca: Track)
    ensures ca.start == MID_GREY && ca.duration == duration && ca.t == 0.0
    ensures IsDraw(d) ==> InTargetRange(ca.target)
    ensures IsDraw(d) && duration > 0.0 ==> WellFormed(ca)
  {
    PickNewTarget(Track(MID_GREY, Rgb(0.0, 0.0, 0.0), 0.0, duration), d)
  }

  /** `init_color_anims(duration)` (lines 81-87): NUM_COLOR_ANIMS tracks,
      track i taking its targets from draws[i]. */
  function InitColorAnims(duration: real, draws: seq<Rgb>): (anims: seq<Track>)
    requires |draws| == NUM_COLOR_ANIMS
    ensures |anims| == NUM_COLOR_ANIMS
    ensures forall i :: 0 <= i < |anims| ==>
      anims[i].start == MID_GREY && anims[i].duration == duration && anims[i].t == 0.0
    ensures (forall i :: 0 <= i < |draws| ==> IsDraw(draws[i])) ==>
      forall i :: 0 <= i < |anims| ==> InTargetRange(anims[i].target)
  {
    seq(NUM_COLOR_ANIMS, i requires 0 <= i < NUM_COLOR_ANIMS => InitTrack(duration, draws[i]))
  }

  /** Whether advancing `ca` by `delta` reaches the end of its transition
      (the test of line 93). */
  predicate Wraps(ca: Track, delta: real)
  {
    ca.t + delta >= ca.duration
  }

  /** One iteration of `update_color_anims` (lines 91-101).  The draw `d` is
      consumed only when the track wraps. */
  function UpdateTrack(ca: Track, delta: real, d: Rgb): (r: Track)
    ensures r.duration == ca.duration
    ensures WellFormed(ca) && delta >= 0.0 && IsDraw(d) ==> WellFormed(r)
  {
    var t := ca.t + delta;
    if t >= ca.duration then
      var leftover := t - ca.duration;
      var picked := PickNewTarget(ca.(start := ca.target, t := t), d);
      if leftover > ca.duration then picked.(t := ca.duration) else picked.(t := leftover)
    else
      ca.(t := t)
  }

  /** Without a wrap only the elapsed time moves, by exactly delta. */
  lemma UpdateWithoutWrap(ca: Track, delta: real, d: Rgb)
    requires !Wraps(ca, delta)
    ensures var r := UpdateTrack(ca, delta, d);
      r.start == ca.start && r.target == ca.target && r.duration == ca.duration && r.t == ca.t + delta
  {
  }

  /** On a wrap the old target becomes the new start, the target is the one
      `pick_new_target` draws, and the elapsed time is the leftover, at most
      one duration: the zero written by `pick_new_target` does not survive. */
  lemma UpdateWithWrap(ca: Track, delta: real, d: Rgb)
    requires Wraps(ca, delta)
    ensures var r := UpdateTrack(ca, delta, d);
      var leftover := ca.t + delta - ca.duration;
      && r.start == ca.target
      && r.target == PickNewTarget(ca, d).target
      && r.t == (if leftover > ca.duration then ca.duration else leftover)
  {
  }

  /** A fresh track (of 3 seconds in the program) advanced by exactly its
      duration re-targets once, with nothing left over. */
  lemma FullPeriodRetargetsOnce(duration: real, d0: Rgb, d: Rgb)
    requires duration > 0.0
    ensures var ca := InitTrack(duration, d0);
      var r := UpdateTrack(ca, duration, d);
      r.t == 0.0 && r.start == ca.target
  {
  }

  /** `get_anim_color` (lines 105-111): the Blend from start to target at
      the eased elapsed fraction of the duration.  Because the ease is
      clamped, the colour always lies between start and target, whatever
      the elapsed time. */
  function GetAnimColor(ca: Track): (c: Rgb)
    requires ca.duration != 0.0
    ensures ChannelsBetween(ca.start, ca.target, c)
    ensures ca.duration > 0.0 && ca.t <= 0.0 ==> c == ca.start
    ensures ca.duration > 0.0 && ca.t >= ca.duration ==> c == ca.target
  {
    var tt := Progress(ca);
    QuotientBounds(ca.t, ca.duration);
    Blend(ca.start, ca.target, Smoothstep(tt))
  }

  /** Lines 108-110: each channel interpolated from a to b at the eased
      fraction e. */
  function Blend(a: Rgb, b: Rgb, e: real): (c: Rgb)
    requires 0.0 <= e <= 1.0
    ensures ChannelsBetween(a, b, c)
  {
    Rgb(Lerp(a.r, b.r, e), Lerp(a.g, b.g, e), Lerp(a.b, b.b, e))
  }

  /** `tt` of line 106: the elapsed fraction of the duration. */
  function Progress(ca: Track): (u: real)
    requires ca.duration != 0.0
    ensures u * ca.duration == ca.t
  {
    ca.t / ca.duration
  }

  /** The elapsed fraction grows with the elapsed time. */
  lemma ProgressMonotone(ca: Track, t': real)
    requires ca.duration > 0.0 && ca.t <= t'
    ensures Progress(ca) <= Progress(ca.(t := t'))
  {
    DivMonotone(ca.t, t', ca.duration);
  }

  lemma QuotientBounds(a: real, b: real)
    requires b != 0.0
    ensures 0.0 < b && a <= 0.0 ==> a / b <= 0.0
    ensures 0.0 < b <= a ==> a / b >= 1.0
  {
  }

  /** A well-formed track's colour stays in the target range. */
  lemma SampleInTargetRange(ca: Track)
    requires ca.duration != 0.0
    ensures WellFormed(ca) ==> InTargetRange(GetAnimColor(ca))
  {
  }

  /** As time passes the colour only moves towards the target. */
  lemma {:induction false} SampleApproachesTarget(ca: Track, t': real)
    requires ca.duration > 0.0 && ca.t <= t'
    ensures ChannelsBetween(GetAnimColor(ca), ca.target, GetAnimColor(ca.(t := t')))
  {
    var u, u' := Progress(ca), Progress(ca.(t := t'));
    var e, e' := Smoothstep(u), Smoothstep(u');
    ProgressMonotone(ca, t');
    SmoothstepMonotone(u, u');
    LerpMonotone(ca.start.r, ca.target.r, e, e');
    LerpMonotone(ca.start.g, ca.target.g, e, e');
    LerpMonotone(ca.start.b, ca.target.b, e, e');
  }

  lemma DivMonotone(a: real, a': real, b: real)
    requires a <= a' && 0.0 < b
    ensures a / b <= a' / b
  {
  }

  /** No snap on a wrap: the colour the new transition starts from is the
      colour the old one ended on. */
  lemma WrapIsContinuous(ca: Track, delta: real, d: Rgb)
    requires ca.duration > 0.0 && Wraps(ca, delta)
    ensures GetAnimColor(UpdateTrack(ca, delta, d).(t := 0.0)) == GetAnimColor(ca.(t := ca.duration))
  {
  }

  /** The colour of a track moves continuously with time: advancing the
      elapsed time from t to t' moves each channel k by at most 1.5 times
      the growth of the elapsed fraction, t'/duration - t/duration, times
      the channel's span |target - start| (EasedStep).  So no body that
      jumps between two close instants meets this contract. */
  lemma SampleLipschitz(ca: Track, t': real, k: Channel)
    requires ca.duration > 0.0 && ca.t <= t'
    ensures EasedStep(Chan(GetAnimColor(ca), k), Chan(GetAnimColor(ca.(t := t')), k),
                      Chan(ca.start, k), Chan(ca.target, k), Progress(ca), Progress(ca.(t := t')))
  {
    ProgressMonotone(ca, t');
    BlendLipschitz(ca.start, ca.target, Progress(ca), Progress(ca.(t := t')), k);
  }

  /** SampleLipschitz at the level of elapsed fractions u <= u'. */
  lemma BlendLipschitz(a: Rgb, b: Rgb, u: real, u': real, k: Channel)
    requires u <= u'
    ensures EasedStep(Chan(Blend(a, b, Smoothstep(u)), k), Chan(Blend(a, b, Smoothstep(u')), k),
                      Chan(a, k), Chan(b, k), u, u')
  {
    EasedLerpLipschitz(Chan(a, k), Chan(b, k), u, u');
  }

  /** When the wrap leaves nothing over, the colour just after the update
      equals the colour at the end of the old transition, and it differs
      from the colour the loop showed before the update (the old track at
      its own elapsed time) by at most 1.5 (1 - t / duration) |target - start|
      per channel, the bound of the last step of the old transition: the
      wrap adds no jump of its own. */
  lemma ExactWrapIsContinuous(ca: Track, delta: real, d: Rgb)
    requires ca.duration > 0.0 && ca.t + delta == ca.duration
    ensures GetAnimColor(UpdateTrack(ca, delta, d)) == GetAnimColor(ca.(t := ca.duration))
    ensures delta >= 0.0 ==> forall k ::
      EasedStep(Chan(GetAnimColor(ca), k), Chan(GetAnimColor(UpdateTrack(ca, delta, d)), k),
                Chan(ca.start, k), Chan(ca.target, k), Progress(ca), 1.0)
  {
    WrapIsContinuous(ca, delta, d);
    if delta >= 0.0 {
      ProgressAtEnd(ca);
      forall k: Channel {
        SampleLipschitz(ca, ca.duration, k);
      }
    }
  }

  /** At t = duration the whole transition has elapsed. */
  lemma ProgressAtEnd(ca: Track)
    requires ca.duration > 0.0
    ensures Progress(ca.(t := ca.duration)) == 1.0
  {
    var u := Progress(ca.(t := ca.duration));
    assert (u - 1.0) * ca.duration == 0.0;
  }

  predicate AllWellFormed(anims: seq<Track>)
  {
    forall i :: 0 <= i < |anims| ==> WellFormed(anims[i])
  }

  predicate AllDraws(draws: seq<Rgb>)
  {
    forall i :: 0 <= i < |draws| ==> IsDraw(draws[i])
  }

  /** `update_color_anims(delta)` (lines 89-103): every track advanced by the
      same delta, track i drawing from draws[i] if it wraps. */
  function UpdateColorAnims(anims: seq<Track>, delta: real, draws: seq<Rgb>): (r: seq<Track>)
    requires |draws| == |anims|
    ensures |r| == |anims|
    ensures forall i :: 0 <= i < |r| ==> r[i].duration == anims[i].duration
    ensures AllWellFormed(anims) && delta >= 0.0 && AllDraws(draws) ==> AllWellFormed(r)
  {
    seq(|anims|, i requires 0 <= i < |anims| => UpdateTrack(anims[i], delta, draws[i]))
  }

  /** The tracks after a run of frames, frame k advancing every track by
      deltas[k] with candidate draws draws[k].  Whatever the non-negative
      deltas and the draws in [0, 1], every track stays well formed. */
  function Run(anims: seq<Track>, deltas: seq<real>, draws: seq<seq<Rgb>>): (r: seq<Track>)
    requires |draws| == |deltas|
    requires forall k :: 0 <= k < |draws| ==> |draws[k]| == |anims|
    ensures |r| == |anims|
    ensures AllWellFormed(anims)
        && (forall k :: 0 <= k < |deltas| ==> deltas[k] >= 0.0)
        && (forall k :: 0 <= k < |draws| ==> AllDraws(draws[k]))
        ==> AllWellFormed(r)
    decreases |deltas|
  {
    if |deltas| == 0 then anims
    else Run(UpdateColorAnims(anims, deltas[0], draws[0]), deltas[1..], draws[1..])
  }
}

=== FILE: idle.dfy ===
/** The frame loop of idle_sweep_only.c, without SDL: the clamped frame
    delta, the per-frame state step (theme clicks, then the track update),
    the channel selection, and the structure of the pixel fill.

    The per-pixel shading of lines 204-225 (the `sinf` waves, the blend
    toward the accent colour, the intensity and the pulse) is not modelled:
    the fill takes the resulting unclamped colour of each pixel as the
    function `shade`. */
module Idle {

  import opened Pixel
  import opened Raster
  import opened Scalar
  import opened ColorAnim
  import opened Theme

  /** `init_color_anims(3.0f)` (line 149). */
  const ANIM_DURATION := 3.0
  /** The largest frame step (line 157), in seconds. */
  const MAX_DELTA := 0.1
  /** `SDL_GetTicks` counts milliseconds in a `Uint32`. */
  const TICK_MODULUS := 0x1_0000_0000

  /** Milliseconds between two tick readings, with the wrap-around of the
      unsigned subtraction of line 156. */
  function ElapsedMs(now: Word, last: Word): (ms: int)
    ensures 0 <= ms < TICK_MODULUS
    ensures now >= last ==> ms == now - last
    ensures now < last ==> ms == now - last + TICK_MODULUS
  {
    (now - last) % TICK_MODULUS
  }

  /** The frame step of lines 155-157: elapsed seconds, clamped to 0.1. */
  function FrameDelta(now: Word, last: Word): (delta: real)
    ensures 0.0 <= delta <= MAX_DELTA
    ensures delta * 1000.0 <= ElapsedMs(now, last) as real
    ensures delta < MAX_DELTA ==> delta * 1000.0 == ElapsedMs(now, last) as real
  {
    var d := ElapsedMs(now, last) as real / 1000.0;
    if d > MAX_DELTA then MAX_DELTA else d
  }

  /** What the loop keeps between frames: the theme and the tracks. */
  datatype IdleState = IdleState(theme: Theme, anims: seq<Track>)

  predicate Valid(s: IdleState)
  {
    IsBuiltIn(s.theme) && |s.anims| == NUM_COLOR_ANIMS && AllWellFormed(s.anims)
  }

  /** Lines 148-149: the Dark theme and fresh tracks of 3 seconds. */
  function InitIdle(draws: seq<Rgb>): (s: IdleState)
    requires |draws| == NUM_COLOR_ANIMS
    ensures s.theme == DARK_THEME
    ensures AllDraws(draws) ==> Valid(s)
  {
    IdleState(DARK_THEME, InitColorAnims(ANIM_DURATION, draws))
  }

  /** One pass of the loop's state changes (lines 161-185): `clicks` mouse
      clicks, each toggling the theme, then every track advanced by
      `delta`. */
  function Step(s: IdleState, clicks: nat, delta: real, draws: seq<Rgb>): (s': IdleState)
    requires |draws| == |s.anims|
    ensures |s'.anims| == |s.anims|
    ensures Valid(s) && delta >= 0.0 && AllDraws(draws) ==> Valid(s')
  {
    IdleState(ToggleTimes(s.theme, clicks), UpdateColorAnims(s.anims, delta, draws))
  }

  /** A frame with an even number of clicks keeps the theme, one with an
      odd number shows the other theme. */
  lemma StepTheme(s: IdleState, clicks: nat, delta: real, draws: seq<Rgb>)
    requires |draws| == |s.anims|
    requires IsBuiltIn(s.theme)
    ensures Step(s, clicks, delta, draws).theme == s.theme <==> clicks % 2 == 0
  {
    ToggleTimesParity(s.theme, clicks);
    ToggleInvolution(s.theme);
  }

  /** The frames of a run, each with its tick readings, clicks and draws. */
  datatype Frame = Frame(now: Word, last: Word, clicks: nat, draws: seq<Rgb>)

  /** The state after a run of frames: from a valid state, and with draws in
      [0, 1], the loop never leaves the valid states. */
  function RunFrames(s: IdleState, frames: seq<Frame>): (s': IdleState)
    requires forall k :: 0 <= k < |frames| ==> |frames[k].draws| == |s.anims|
    ensures |s'.anims| == |s.anims|
    ensures Valid(s) && (forall k :: 0 <= k < |frames| ==> AllDraws(frames[k].draws)) ==> Valid(s')
    decreases |frames|
  {
    if |frames| == 0 then s
    else
      var f := frames[0];
      RunFrames(Step(s, f.clicks, FrameDelta(f.now, f.last), f.draws), frames[1..])
  }

  /** The three sampled colours animR, animG, animB (lines 187-197). */
  datatype AnimColors = AnimColors(animR: Rgb, animG: Rgb, animB: Rgb)

  function SelectAnimColors(theme: Theme, anims: seq<Track>): (c: AnimColors)
    requires |anims| == NUM_COLOR_ANIMS
    requires forall i :: 0 <= i < |anims| ==> anims[i].duration != 0.0
    ensures AllWellFormed(anims) ==>
      InTargetRange(c.animR) && InTargetRange(c.animG) && InTargetRange(c.animB)
    ensures multiset{c.animR, c.animG, c.animB}
         == multiset{GetAnimColor(anims[0]), GetAnimColor(anims[1]), GetAnimColor(anims[2])}
    ensures c.animG == GetAnimColor(anims[1])
  {
    var s0, s1, s2 := GetAnimColor(anims[0]), GetAnimColor(anims[1]), GetAnimColor(anims[2]);
    SampleInTargetRange(anims[0]);
    SampleInTargetRange(anims[1]);
    SampleInTargetRange(anims[2]);
    if theme.name == DARK_THEME.name then AnimColors(s2, s1, s0) else AnimColors(s0, s1, s2)
  }

  /** The selection agrees with the track table of the theme: colour role
      i (red, green, blue) is the sample of track `ChannelTracks(theme)[i]`. */
  lemma SelectionFollowsTrackTable(theme: Theme, anims: seq<Track>)
    requires |anims| == NUM_COLOR_ANIMS
    requires forall i :: 0 <= i < |anims| ==> anims[i].duration != 0.0
    ensures var c, m := SelectAnimColors(theme, anims), ChannelTracks(theme);
      && c.animR == GetAnimColor(anims[m[0]])
      && c.animG == GetAnimColor(anims[m[1]])
      && c.animB == GetAnimColor(anims[m[2]])
  {
  }

  /** The two themes feed the same three samples to the pixels, with red
      and blue exchanged. */
  lemma SelectionSwapsRedAndBlue(theme: Theme, anims: seq<Track>)
    requires |anims| == NUM_COLOR_ANIMS
    requires forall i :: 0 <= i < |anims| ==> anims[i].duration != 0.0
    ensures var c, c' := SelectAnimColors(theme, anims), SelectAnimColors(Toggle(theme), anims);
      c.animR == c'.animB && c.animG == c'.animG && c.animB == c'.animR
  {
    ThemesSwapRedAndBlue(theme);
  }

  /** The pixel written at lines 227-231 from the unclamped colour `shade`:
      opaque, each channel quantised by `fcol_to_u8`. */
  function IdlePixel(shade: Rgb): (p: Word)
    ensures AlphaOf(p) == OPAQUE
    ensures RedOf(p) == FcolToU8(shade.r)
    ensures GreenOf(p) == FcolToU8(shade.g)
    ensures BlueOf(p) == FcolToU8(shade.b)
  {
    Pack(OPAQUE, FcolToU8(shade.r), FcolToU8(shade.g), FcolToU8(shade.b))
  }

  /** The fill loop of lines 203-233 on a w-by-h buffer: every slot y*w + x
      is written exactly once, in bounds, with the opaque quantised pixel of
      (x, y). */
  method RenderIdle(w: nat, h: nat, init: seq<Word>, shade: (int, int) -> Rgb)
    returns (pixels: seq<Word>)
    requires |init| == w * h
    ensures |pixels| == w * h
    ensures forall x, y :: 0 <= x < w && 0 <= y < h ==>
      0 <= PixelIndex(w, x, y) < |pixels| && pixels[PixelIndex(w, x, y)] == IdlePixel(shade(x, y))
    ensures forall k :: 0 <= k < |pixels| ==> AlphaOf(pixels[k]) == OPAQUE
  {
    var writes;
    pixels, writes := Fill(w, h, init, (x, y) => IdlePixel(shade(x, y)));
    forall k | 0 <= k < |pixels|
      ensures AlphaOf(pixels[k]) == OPAQUE
    {
      IndexCovers(w, h, k);
      assert pixels[PixelIndex(w, k % w, k / w)] == IdlePixel(shade(k % w, k / w));
    }
  }
}

=== FILE: pixel.dfy ===
/** Packed 32-bit ARGB pixels as uploaded to an SDL_PIXELFORMAT_ARGB8888
    texture: alpha in bits 24-31, red in 16-23, green in 8-15, blue in 0-7.

    Both source files pack with `(0xFF << 24) | (r << 16) | (g << 8) | b` on a
    signed `int`.  The model packs into an unsigned 32-bit word, the value the
    texture receives.  Shifting a byte left by k bits multiplies it by 2^k,
    and the four shifted bytes occupy disjoint bit lanes, so the bitwise OR
    is their sum; the model writes that sum. */
module Pixel {

  type Byte = b: int | 0 <= b < 0x100

  /** An unsigned 32-bit word (`Uint32`). */
  type Word = w: int | 0 <= w < 0x1_0000_0000

  const OPAQUE: Byte := 0xFF

  /** An 8-bit colour, as the `Uint8 r, g, b` locals of the sweep. */
  datatype Rgb8 = Rgb8(r: Byte, g: Byte, b: Byte)

  /** Bits 24-31. */
  function AlphaOf(p: Word): (a: Byte) { p / 0x100 / 0x100 / 0x100 }
  /** Bits 16-23. */
  function RedOf(p: Word): (r: Byte) { p / 0x100 / 0x100 % 0x100 }
  /** Bits 8-15. */
  function GreenOf(p: Word): (g: Byte) { p / 0x100 % 0x100 }
  /** Bits 0-7. */
  function BlueOf(p: Word): (b: Byte) { p % 0x100 }

  /** `(a << 24) | (r << 16) | (g << 8) | b`: each byte can be read back
      from its own lane. */
  function Pack(a: Byte, r: Byte, g: Byte, b: Byte): (p: Word)
    ensures AlphaOf(p) == a
    ensures RedOf(p) == r
    ensures GreenOf(p) == g
    ensures BlueOf(p) == b
  {
    var ar := a * 0x100 + r;
    var arg := ar * 0x100 + g;
    ByteSplit(a, r);
    ByteSplit(ar, g);
    ByteSplit(arg, b);
    a * 0x100_0000 + r * 0x1_0000 + g * 0x100 + b
  }

  /** The packed pixel of an opaque colour. */
  function PackOpaque(c: Rgb8): (p: Word)
    ensures AlphaOf(p) == OPAQUE
    ensures Rgb8(RedOf(p), GreenOf(p), BlueOf(p)) == c
  {
    Pack(OPAQUE, c.r, c.g, c.b)
  }

  lemma ByteSplit(hi: int, lo: int)
    requires 0 <= lo < 0x100
    ensures (hi * 0x100 + lo) / 0x100 == hi && (hi * 0x100 + lo) % 0x100 == lo
  {
  }

  lemma ByteJoin(n: int)
    ensures n == n / 0x100 * 0x100 + n % 0x100
  {
  }

  /** Every 32-bit word is the packing of its own four lanes, so packing is
      a bijection between byte quadruples and words. */
  lemma UnpackPack(p: Word)
    ensures Pack(AlphaOf(p), RedOf(p), GreenOf(p), BlueOf(p)) == p
  {
    ByteJoin(p);
    ByteJoin(p / 0x100);
    ByteJoin(p / 0x100 / 0x100);
  }

  /** Packing never merges two colours. */
  lemma PackInjective(a: Byte, r: Byte, g: Byte, b: Byte, a': Byte, r': Byte, g': Byte, b': Byte)
    requires Pack(a, r, g, b) == Pack(a', r', g', b')
    ensures a == a' && r == r' && g == g' && b == b'
  {
  }
}

=== FILE: raster.dfy ===
/** Row-major pixel buffers.

    Both programs fill a `malloc`ed buffer of `width * height` packed pixels
    with two nested loops, `y` outer and `x` inner, writing slot
    `y * width + x`. */
module Raster {

  import opened Pixel

  /** The slot of pixel (x, y) in a buffer `w` pixels wide. */
  function PixelIndex(w: int, x: int, y: int): (k: int)
  {
    y * w + x
  }

  /** Every pixel of a w-by-h image has a slot inside the buffer. */
  lemma IndexInBounds(w: int, h: int, x: int, y: int)
    requires 0 <= x < w && 0 <= y < h
    ensures 0 <= PixelIndex(w, x, y) < w * h
  {
    assert y * w <= (h - 1) * w by {
      MulMonotone(y, h - 1, w);
    }
  }

  /** The slot determines the pixel: the column and row come back as the
      remainder and quotient by the width. */
  lemma IndexDecode(w: int, x: int, y: int)
    requires 0 <= x < w && 0 <= y
    ensures PixelIndex(w, x, y) % w == x
    ensures PixelIndex(w, x, y) / w == y
  {
    var k := PixelIndex(w, x, y);
    var q, r := k / w, k % w;
    assert q * w + r == y * w + x;
    if q < y {
      MulMonotone(q + 1, y, w);
      assert false;
    } else if q > y {
      MulMonotone(y + 1, q, w);
      assert false;
    }
  }

  /** Distinct pixels have distinct slots. */
  lemma IndexInjective(w: int, x: int, y: int, x': int, y': int)
    requires 0 <= x < w && 0 <= y && 0 <= x' < w && 0 <= y'
    requires PixelIndex(w, x, y) == PixelIndex(w, x', y')
    ensures x == x' && y == y'
  {
    IndexDecode(w, x, y);
    IndexDecode(w, x', y');
  }

  /** Every slot of the buffer is the slot of some pixel. */
  lemma IndexCovers(w: int, h: int, k: int)
    requires 0 <= w && 0 <= k < w * h
    ensures 0 < w
    ensures 0 <= k % w < w && 0 <= k / w < h
    ensures PixelIndex(w, k % w, k / w) == k
  {
    if k / w >= h {
      MulMonotone(h, k / w, w);
      assert false;
    }
  }

  lemma MulMonotone(a: int, b: int, c: int)
    requires a <= b && 0 <= c
    ensures a * c <= b * c
  {
  }

  /** The fill loop: for y in [0, h), for x in [0, w), write `pixelAt(x, y)`
      into slot y*w + x of `init` (the buffer's previous contents).  Besides
      the buffer it returns the slots in the order they were written. */
  method Fill(w: nat, h: nat, init: seq<Word>, pixelAt: (int, int) -> Word)
    returns (buf: seq<Word>, writes: seq<int>)
    requires |init| == w * h
    ensures |buf| == w * h
    ensures forall x, y :: 0 <= x < w && 0 <= y < h ==>
      0 <= PixelIndex(w, x, y) < |buf| && buf[PixelIndex(w, x, y)] == pixelAt(x, y)
    ensures |writes| == w * h
    ensures forall k :: 0 <= k < |writes| ==> writes[k] == k
  {
    buf, writes := init, [];
    // the pixel whose value each written slot holds
    ghost var written: seq<(int, int)> := [];
    var y := 0;
    while y < h
      invariant 0 <= y <= h
      invariant |buf| == w * h
      invariant |writes| == |written| == y * w <= w * h
      invariant forall k :: 0 <= k < |writes| ==> writes[k] == k
      invariant forall k :: 0 <= k < |written| ==> 0 <= written[k].0 < w && 0 <= written[k].1 < h
      invariant forall k :: 0 <= k < |written| ==> PixelIndex(w, written[k].0, written[k].1) == k
      invariant forall k :: 0 <= k < |written| ==> buf[k] == pixelAt(written[k].0, written[k].1)
    {
      var x := 0;
      while x < w
        invariant 0 <= x <= w
        invariant |buf| == w * h
        invariant |writes| == |written| == PixelIndex(w, x, y) <= w * h
        invariant forall k :: 0 <= k < |writes| ==> writes[k] == k
        invariant forall k :: 0 <= k < |written| ==> 0 <= written[k].0 < w && 0 <= written[k].1 < h
        invariant forall k :: 0 <= k < |written| ==> PixelIndex(w, written[k].0, written[k].1) == k
        invariant forall k :: 0 <= k < |written| ==> buf[k] == pixelAt(written[k].0, written[k].1)
      {
        var i := PixelIndex(w, x, y);
        IndexInBounds(w, h, x, y);
        buf := buf[i := pixelAt(x, y)];
        writes := writes + [i];
        written := written + [(x, y)];
        x := x + 1;
      }
      assert PixelIndex(w, w, y) == (y + 1) * w;
      y := y + 1;
    }
    assert |written| == w * h;
    forall x, y | 0 <= x < w && 0 <= y < h
      ensures 0 <= PixelIndex(w, x, y) < |buf| && buf[PixelIndex(w, x, y)] == pixelAt(x, y)
    {
      var k := PixelIndex(w, x, y);
      IndexInBounds(w, h, x, y);
      IndexInjective(w, x, y, written[k].0, written[k].1);
    }
  }
}

=== FILE: scalar.dfy ===
/** The scalar helpers of idle_sweep_only.c: `lerp_f`, `smoothstep_f` and
    `fcol_to_u8`.

    `float` is modelled by `real`: the model states what the formulas mean
    on exact numbers and does not reproduce IEEE rounding. */
module Scalar {

  import opened Pixel

  /** x lies on the closed segment between a and b, whichever is larger. */
  predicate Between(a: real, b: real, x: real)
  {
    (a <= x <= b) || (b <= x <= a)
  }

  /** `lerp_f` (lines 16-18): the point a fraction t of the way from a to b. */
  function Lerp(a: real, b: real, t: real): (r: real)
    ensures t == 0.0 ==> r == a
    ensures t == 1.0 ==> r == b
    ensures 0.0 <= t <= 1.0 ==> Between(a, b, r)
  {
    LerpWithin(a, b, t);
    a + (b - a) * t
  }

  lemma LerpWithin(a: real, b: real, t: real)
    ensures 0.0 <= t <= 1.0 ==> Between(a, b, a + (b - a) * t)
  {
    if 0.0 <= t <= 1.0 {
      var d := b - a;
      assert d * (1.0 - t) == d - d * t;
      if d >= 0.0 {
        MulNonNeg(d, t);
        MulNonNeg(d, 1.0 - t);
      } else {
        MulNonNeg(-d, t);
        MulNonNeg(-d, 1.0 - t);
      }
    }
  }

  /** Lerp moves monotonically from a towards b as t grows in [0, 1]: a
      later sample is never farther from b than an earlier one. */
  lemma LerpMonotone(a: real, b: real, t: real, t': real)
    requires 0.0 <= t <= t' <= 1.0
    ensures Between(Lerp(a, b, t), b, Lerp(a, b, t'))
  {
    var d := b - a;
    assert d * (t' - t) == d * t' - d * t;
    assert d * (1.0 - t') == d - d * t';
    if d >= 0.0 {
      MulNonNeg(d, t' - t);
      MulNonNeg(d, 1.0 - t');
    } else {
      MulNonNeg(-d, t' - t);
      MulNonNeg(-d, 1.0 - t');
    }
  }

  /** `smoothstep_f` (lines 20-24): the cubic ease 3t^2 - 2t^3, clamped to 0
      below 0 and to 1 above 1. */
  function Smoothstep(t: real): (s: real)
    ensures t <= 0.0 ==> s == 0.0
    ensures t >= 1.0 ==> s == 1.0
    ensures 0.0 <= s <= 1.0
  {
    if t <= 0.0 then 0.0
    else if t >= 1.0 then 1.0
    else
      SmoothstepCubicInRange(t);
      t * t * (3.0 - 2.0 * t)
  }

  lemma SmoothstepCubicInRange(t: real)
    requires 0.0 < t < 1.0
    ensures 0.0 <= t * t * (3.0 - 2.0 * t) <= 1.0
  {
    MulNonNeg(t, t);
    MulNonNeg(t * t, 3.0 - 2.0 * t);
    assert 1.0 - t * t * (3.0 - 2.0 * t) == (1.0 - t) * (1.0 - t) * (1.0 + 2.0 * t);
    MulNonNeg(1.0 - t, 1.0 - t);
    MulNonNeg((1.0 - t) * (1.0 - t), 1.0 + 2.0 * t);
  }

  /** The ease never turns back: a later time gives a value at least as
      large, so an eased sample never overshoots and never retreats. */
  lemma SmoothstepMonotone(t: real, t': real)
    requires t <= t'
    ensures Smoothstep(t) <= Smoothstep(t')
  {
    if 0.0 < t && t' < 1.0 {
      CubicMonotone(t, t');
    }
  }

  lemma CubicMonotone(a: real, b: real)
    requires 0.0 <= a <= b <= 1.0
    ensures a * a * (3.0 - 2.0 * a) <= b * b * (3.0 - 2.0 * b)
  {
    var k := 3.0 * (a + b) - 2.0 * (a * a + a * b + b * b);
    assert b * b * (3.0 - 2.0 * b) - a * a * (3.0 - 2.0 * a) == (b - a) * k;
    MulNonNeg(a, 1.0 - a);
    MulNonNeg(b, 1.0 - b);
    MulNonNeg(a, 1.0 - b);
    assert a * (1.0 - a) == a - a * a;
    assert b * (1.0 - b) == b - b * b;
    assert a * (1.0 - b) == a - a * b;
    assert k >= 0.0;
    MulNonNeg(b - a, k);
  }

  /** The ease is symmetric about its midpoint. */
  lemma SmoothstepSymmetric(t: real)
    ensures Smoothstep(1.0 - t) == 1.0 - Smoothstep(t)
  {
    if 0.0 < t < 1.0 {
      var u := 1.0 - t;
      assert u * u * (3.0 - 2.0 * u) == 1.0 - t * t * (3.0 - 2.0 * t);
    }
  }

  /** The ease is Lipschitz with constant 1.5, its steepest slope (at
      t = 1/2): a step of time moves it by at most one and a half times the
      step, so an eased sample never jumps. */
  lemma SmoothstepLipschitz(t: real, t': real)
    requires t <= t'
    ensures 0.0 <= Smoothstep(t') - Smoothstep(t) <= 1.5 * (t' - t)
  {
    SmoothstepMonotone(t, t');
    var a, b := Clamp01(t), Clamp01(t');
    SmoothstepOfClamp(t);
    SmoothstepOfClamp(t');
    CubicLipschitz(a, b);
  }

  /** t pulled into [0, 1]. */
  function Clamp01(t: real): (c: real)
    ensures 0.0 <= c <= 1.0
    ensures 0.0 <= t <= 1.0 ==> c == t
  {
    if t < 0.0 then 0.0 else if t > 1.0 then 1.0 else t
  }

  /** The clamp of `smoothstep_f` is the cubic on the clamped argument, since
      the cubic is 0 at 0 and 1 at 1. */
  lemma SmoothstepOfClamp(t: real)
    ensures var c := Clamp01(t); Smoothstep(t) == c * c * (3.0 - 2.0 * c)
  {
  }

  lemma CubicLipschitz(a: real, b: real)
    requires 0.0 <= a <= b <= 1.0
    ensures b * b * (3.0 - 2.0 * b) - a * a * (3.0 - 2.0 * a) <= 1.5 * (b - a)
  {
    var k := 3.0 * (a + b) - 2.0 * (a * a + a * b + b * b);
    assert b * b * (3.0 - 2.0 * b) - a * a * (3.0 - 2.0 * a) == (b - a) * k;
    SquareNonNeg(a + b - 1.0);
    MulNonNeg(b - a, b - a);
    assert 1.5 - k == 1.5 * ((a + b - 1.0) * (a + b - 1.0)) + 0.5 * ((b - a) * (b - a));
    MulNonNeg(b - a, 1.5 - k);
    assert (b - a) * (1.5 - k) == 1.5 * (b - a) - (b - a) * k;
  }

  lemma SquareNonNeg(x: real)
    ensures 0.0 <= x * x
  {
    if x < 0.0 {
      MulNonNeg(-x, -x);
      assert (-x) * (-x) == x * x;
    } else {
      MulNonNeg(x, x);
    }
  }

  /** The distance |y - x| between two reals. */
  function Dist(x: real, y: real): (d: real)
    ensures 0.0 <= d
    ensures d == y - x || d == x - y
  {
    if x <= y then y - x else x - y
  }

  /** x' is within 1.5 (u' - u) |b - a| of x: as far as an eased
      interpolation from a to b can move while its input grows from u to u'. */
  predicate EasedStep(x: real, x': real, a: real, b: real, u: real, u': real)
  {
    Dist(x, x') <= 1.5 * (u' - u) * Dist(a, b)
  }

  /** An eased interpolation from a to b, sampled at times t <= t', moves by
      at most 1.5 (t' - t) |b - a|. */
  lemma EasedLerpLipschitz(a: real, b: real, t: real, t': real)
    requires t <= t'
    ensures EasedStep(Lerp(a, b, Smoothstep(t)), Lerp(a, b, Smoothstep(t')), a, b, t, t')
  {
    SmoothstepLipschitz(t, t');
    LerpStep(a, b, Smoothstep(t), Smoothstep(t'), t, t');
  }

  /** Advancing the fraction of a lerp by at most 1.5 (t' - t) moves the
      point by at most 1.5 (t' - t) |b - a|. */
  lemma LerpStep(a: real, b: real, e: real, e': real, t: real, t': real)
    requires 0.0 <= e' - e <= 1.5 * (t' - t)
    ensures Dist(Lerp(a, b, e), Lerp(a, b, e')) <= 1.5 * (t' - t) * Dist(a, b)
  {
    assert Lerp(a, b, e') - Lerp(a, b, e) == (b - a) * (e' - e);
    ScaledDistBound(Lerp(a, b, e), Lerp(a, b, e'), a, b, e' - e, 1.5 * (t' - t));
  }

  /** y - x = (b - a) s with 0 <= s <= m gives |y - x| <= m |b - a|. */
  lemma ScaledDistBound(x: real, y: real, a: real, b: real, s: real, m: real)
    requires y - x == (b - a) * s && 0.0 <= s <= m
    ensures Dist(x, y) <= m * Dist(a, b)
  {
    var k := Dist(a, b);
    MulNonNeg(k, s);
    MulNonNeg(k, m - s);
    assert k * (m - s) == k * m - k * s;
    if b < a {
      assert (b - a) * s == -(k * s);
    } else {
      assert (b - a) * s == k * s;
    }
  }

  lemma MulNonNeg(x: real, y: real)
    requires 0.0 <= x && 0.0 <= y
    ensures 0.0 <= x * y
  {
  }

  /** C's conversion of a `float` to `int`: truncation toward zero. */
  function TruncToInt(x: real): (i: int)
    ensures x >= 0.0 ==> i as real <= x < i as real + 1.0
    ensures x < 0.0 ==> i as real - 1.0 < x <= i as real
  {
    if x >= 0.0 then x.Floor else -((-x).Floor)
  }

  /** `fcol_to_u8` (lines 26-31): scale to 0..255 and round half up
      (`(int)(v * 255 + 0.5)`, exact for the non-negative values that
      survive the clamp), then clamp to the byte range. */
  function FcolToU8(v: real): (b: Byte)
    ensures v <= 0.0 ==> b == 0
    ensures v >= 1.0 ==> b == 255
    ensures 0.0 <= v <= 1.0 ==> b as real <= v * 255.0 + 0.5 < b as real + 1.0
  {
    var iv := TruncToInt(v * 255.0 + 0.5);
    if iv < 0 then 0
    else if iv > 255 then 255
    else iv
  }

  /** Quantising never reverses the order of two intensities. */
  lemma FcolToU8Monotone(v: real, v': real)
    requires v <= v'
    ensures FcolToU8(v) <= FcolToU8(v')
  {
    var x, x' := v * 255.0 + 0.5, v' * 255.0 + 0.5;
    assert x <= x';
    if x >= 0.0 {
      assert x.Floor <= x'.Floor;
    } else if x' < 0.0 {
      assert (-x').Floor <= (-x).Floor;
    }
  }
}

=== FILE: sweep.dfy ===
/** The grey diagonal sweep of main_unico.c.

    Every frame, pixel (x, y) of the 800x600 window is coloured by a closed
    formula in x + y and the frame counter: a grey triangle wave of period
    128 travelling along the diagonals, whose crest diagonal is lit in green,
    blue or red, the colour changing every 60 frames. */
module Sweep {

  import opened CInt
  import opened Pixel
  import opened Raster

  const WIDTH := 800
  const HEIGHT := 600

  /** Diagonals (and frames) in one period of the triangle wave. */
  const PERIOD := 128
  /** `tri` on the crest diagonal. */
  const CREST := 64
  /** Frames during which one crest colour is shown. */
  const FRAMES_PER_PHASE := 60
  /** Number of crest colours: green, blue, red. */
  const PHASES := 3
  /** The lit channel of the crest gets `v * BOOST` added. */
  const BOOST := 6

  /** Frames after which the whole picture repeats: a common multiple of
      PERIOD and FRAMES_PER_PHASE * PHASES. */
  const CYCLE := 5760

  /** `raw` (lines 79-80): the position of pixel (x, y) within the sweep
      period, computed with C's truncating `%` and then lifted to be
      non-negative; it is the Euclidean residue of x + y - frame. */
  function Raw(x: int, y: int, frame: int): (raw: int)
    ensures 0 <= raw < PERIOD
    ensures raw == (x + y - frame) % PERIOD
  {
    var r := CRem(x + y - frame, PERIOD);
    EuclidFromTruncated(x + y - frame);
    if r < 0 then r + PERIOD else r
  }

  lemma EuclidFromTruncated(a: int)
    ensures CRem(a, PERIOD) < 0 ==> CRem(a, PERIOD) + PERIOD == a % PERIOD
    ensures CRem(a, PERIOD) >= 0 ==> CRem(a, PERIOD) == a % PERIOD
  {
    if a < 0 {
      var m := (-a) % PERIOD;
      var q := (-a) / PERIOD;
      assert -a == q * PERIOD + m;
      if m == 0 {
        assert a == (-q) * PERIOD;
      } else {
        assert a == (-q - 1) * PERIOD + (PERIOD - m);
      }
    }
  }

  /** `tri` (line 82): the distance of `raw` from the trough at 64. */
  function Tri(raw: int): (tri: int)
    requires 0 <= raw < PERIOD
    ensures 0 <= tri <= CREST
    ensures tri == CREST <==> raw == 0
    ensures tri == 0 <==> raw == CREST
  {
    Abs(raw - CREST)
  }

  /** `v` (line 83): the grey level, `tri / 4` stored in a `Uint8`.  `tri` is
      non-negative, so C's division and Dafny's agree. */
  function Level(tri: int): (v: Byte)
    requires 0 <= tri <= CREST
    ensures 4 * v <= tri < 4 * v + 4
    ensures v <= CREST / 4
  {
    ToU8(tri / 4)
  }

  /** `colorPhase` (line 86): `(frame / 60) % 3` in C arithmetic. */
  function ColorPhase(frame: int): (phase: int)
    ensures -PHASES < phase < PHASES
    ensures frame >= 0 ==> 0 <= phase
  {
    CRem(CDiv(frame, FRAMES_PER_PHASE), PHASES)
  }

  /** The frame counter starts at 0 and only increments, and on such frames
      the phase is the block number of the frame modulo 3. */
  lemma ColorPhaseOfFrame(frame: int)
    requires frame >= 0
    ensures 0 <= ColorPhase(frame) < PHASES
    ensures ColorPhase(frame) == (frame / FRAMES_PER_PHASE) % PHASES
  {
    NonNegativeAgrees(frame, FRAMES_PER_PHASE);
    NonNegativeAgrees(frame / FRAMES_PER_PHASE, PHASES);
  }

  /** On negative frames C's truncating `/` and `%` shift the blocks: frames
      -59 to -1 share block 0 with frames 0 to 59, and frames -60 to -179
      have the negative phases -1 and -2, which light no channel. */
  lemma NegativeFramePhases()
    ensures ColorPhase(-1) == ColorPhase(-59) == 0
    ensures ColorPhase(-60) == ColorPhase(-119) == -1
    ensures ColorPhase(-120) == ColorPhase(-179) == -2
    ensures SweepColor(127, 0, -1) == Rgb8(16, 112, 16)
    ensures SweepColor(68, 0, -60) == Rgb8(16, 16, 16)
  {
    LevelFacts(0);
  }

  /** The phase is the same on all 60 frames of a block. */
  lemma ColorPhaseConstantOnBlock(frame: int, frame': int)
    requires 0 <= frame && 0 <= frame'
    requires frame / FRAMES_PER_PHASE == frame' / FRAMES_PER_PHASE
    ensures ColorPhase(frame) == ColorPhase(frame')
  {
    ColorPhaseOfFrame(frame);
    ColorPhaseOfFrame(frame');
  }

  /** The phases come round every 180 frames. */
  lemma ColorPhaseCycles(frame: int)
    requires frame >= 0
    ensures ColorPhase(frame + FRAMES_PER_PHASE * PHASES) == ColorPhase(frame)
  {
    ColorPhaseOfFrame(frame);
    ColorPhaseOfFrame(frame + FRAMES_PER_PHASE * PHASES);
    assert (frame + FRAMES_PER_PHASE * PHASES) / FRAMES_PER_PHASE == frame / FRAMES_PER_PHASE + PHASES;
  }

  /** The colour of pixel (x, y) at `frame` (lines 79-92).  The `Uint8 +=`
      of lines 89-91 is written as a reduction modulo 256. */
  function SweepColor(x: int, y: int, frame: int): (c: Rgb8)
    ensures c.r <= 112 && c.g <= 112 && c.b <= 112
    ensures (x + y - frame) % PERIOD != 0 ==> c.r == c.g == c.b
  {
    ColourAt(Raw(x, y, frame), frame)
  }

  /** The colour of every pixel whose `raw` is `raw`: only the crest
      (raw = 0) is tinted, and the tint is a single channel boosted to
      seven times the grey level.  Some negative frames give C's `%` a
      negative phase, which no branch selects, so the crest stays grey. */
  function ColourAt(raw: int, frame: int): (c: Rgb8)
    requires 0 <= raw < PERIOD
    ensures c.r <= 112 && c.g <= 112 && c.b <= 112
    ensures raw != 0 ==> c.r == c.g == c.b <= 15
    ensures raw == 0 && ColorPhase(frame) >= 0 ==> multiset{c.r, c.g, c.b} == multiset{16, 16, 112}
    ensures raw == 0 && ColorPhase(frame) < 0 ==> c == Rgb8(16, 16, 16)
  {
    LevelFacts(raw);
    var tri := Tri(raw);
    var v := Level(tri);
    var phase := ColorPhase(frame);
    if CRem(tri, CREST) == 0 then
      if phase == 0 then Rgb8(v, ToU8(v + v * BOOST), v)
      else if phase == 1 then Rgb8(v, v, ToU8(v + v * BOOST))
      else if phase == 2 then Rgb8(ToU8(v + v * BOOST), v, v)
      else Rgb8(v, v, v)
    else
      Rgb8(v, v, v)
  }

  /** The crest test `tri % 64 == 0` of line 88 picks out raw = 0, where
      the level is 16, and raw = 64, where it is 0; elsewhere the level is
      at most 15. */
  lemma LevelFacts(raw: int)
    requires 0 <= raw < PERIOD
    ensures CRem(Tri(raw), CREST) == 0 <==> raw == 0 || raw == CREST
    ensures raw == 0 ==> Level(Tri(raw)) == 16
    ensures raw == CREST ==> Level(Tri(raw)) == 0
    ensures raw != 0 ==> Level(Tri(raw)) <= 15
  {
    var tri := Tri(raw);
    if tri == CREST {
      assert CRem(tri, CREST) == 0;
    } else if tri != 0 {
      assert CRem(tri, CREST) == tri;
    }
  }

  /** The packed pixel written at line 94-95. */
  function SweepPixel(x: int, y: int, frame: int): (p: Word)
    ensures AlphaOf(p) == OPAQUE
    ensures Rgb8(RedOf(p), GreenOf(p), BlueOf(p)) == SweepColor(x, y, frame)
  {
    PackOpaque(SweepColor(x, y, frame))
  }

  /** The boosted channel never exceeds 112, so the `Uint8 +=` never wraps:
      the modular sum is the plain sum. */
  lemma BoostNeverWraps(x: int, y: int, frame: int)
    ensures var v := Level(Tri(Raw(x, y, frame)));
      ToU8(v + v * BOOST) == v + v * BOOST <= 112
  {
  }

  /** Off the crest diagonal the pixel is grey, at level |raw - 64| / 4,
      which is at most 15; this includes the trough diagonal (raw = 64),
      where the boost of lines 89-91 adds 0 to a black pixel. */
  lemma GreyOffCrest(x: int, y: int, frame: int)
    requires (x + y - frame) % PERIOD != 0
    ensures var c := SweepColor(x, y, frame);
      var g := Abs((x + y - frame) % PERIOD - CREST) / 4;
      c == Rgb8(g, g, g) && g <= 15
  {
    var raw := Raw(x, y, frame);
    var tri := Tri(raw);
    if tri == 0 {
      assert CRem(tri, CREST) == 0;
    } else {
      assert 0 < tri < CREST;
      assert CRem(tri, CREST) == tri;
    }
  }

  /** On the crest diagonal (raw = 0, tri = 64, v = 16) exactly one channel is
      lit to 112 and the other two stay at 16: green in phase 0, blue in
      phase 1, red in phase 2. */
  lemma CrestColour(x: int, y: int, frame: int)
    requires frame >= 0
    requires (x + y - frame) % PERIOD == 0
    ensures var c := SweepColor(x, y, frame);
      var phase := (frame / FRAMES_PER_PHASE) % PHASES;
      && (phase == 0 ==> c == Rgb8(16, 112, 16))
      && (phase == 1 ==> c == Rgb8(16, 16, 112))
      && (phase == 2 ==> c == Rgb8(112, 16, 16))
  {
    ColorPhaseOfFrame(frame);
    assert Tri(Raw(x, y, frame)) == CREST;
    assert CRem(CREST, CREST) == 0;
  }

  /** The pixel depends on (x, y) only through x + y: the picture is
      constant along each anti-diagonal. */
  lemma ConstantOnDiagonals(x: int, y: int, x': int, y': int, frame: int)
    requires x + y == x' + y'
    ensures SweepPixel(x, y, frame) == SweepPixel(x', y', frame)
  {
    var raw := Raw(x, y, frame);
    assert raw == Raw(x', y', frame);
    assert SweepColor(x, y, frame) == ColourAt(raw, frame) == SweepColor(x', y', frame);
  }

  /** Advancing the frame by one moves the wave by one diagonal, as long as
      the crest colour does not change. */
  lemma SweepTravels(x: int, y: int, frame: int)
    requires ColorPhase(frame + 1) == ColorPhase(frame)
    ensures SweepColor(x + 1, y, frame + 1) == SweepColor(x, y, frame)
  {
    var raw := Raw(x, y, frame);
    assert Raw(x + 1, y, frame + 1) == raw;
    assert ColourAt(raw, frame + 1) == ColourAt(raw, frame);
  }

  /** `raw` repeats every 128 frames for every pixel. */
  lemma RawPeriodic(x: int, y: int, frame: int)
    ensures Raw(x, y, frame + PERIOD) == Raw(x, y, frame)
  {
    var a := x + y - frame;
    assert (a - PERIOD) % PERIOD == a % PERIOD by {
      assert a - PERIOD == (a / PERIOD - 1) * PERIOD + a % PERIOD;
    }
  }

  /** The whole picture repeats every 5760 frames. */
  lemma {:induction false} SweepPeriodic(x: int, y: int, frame: int)
    requires frame >= 0
    ensures SweepColor(x, y, frame + CYCLE) == SweepColor(x, y, frame)
  {
    RawRepeats(x, y, frame, CYCLE / PERIOD);
    PhaseRepeats(frame, CYCLE / (FRAMES_PER_PHASE * PHASES));
  }

  lemma {:induction false} RawRepeats(x: int, y: int, frame: int, n: nat)
    ensures Raw(x, y, frame + n * PERIOD) == Raw(x, y, frame)
  {
    if n > 0 {
      RawRepeats(x, y, frame, n - 1);
      RawPeriodic(x, y, frame + (n - 1) * PERIOD);
    }
  }

  lemma {:induction false} PhaseRepeats(frame: int, n: nat)
    requires frame >= 0
    ensures ColorPhase(frame + n * (FRAMES_PER_PHASE * PHASES)) == ColorPhase(frame)
  {
    if n > 0 {
      PhaseRepeats(frame, n - 1);
      ColorPhaseCycles(frame + (n - 1) * (FRAMES_PER_PHASE * PHASES));
    }
  }

  /** One frame of the sweep (lines 77-97): the 800x600 buffer, every slot
      written once in row-major order with the sweep pixel of its
      coordinates, so every slot ends up opaque. */
  method RenderSweep(frame: int, init: seq<Word>) returns (pixels: seq<Word>)
    requires |init| == WIDTH * HEIGHT
    ensures |pixels| == WIDTH * HEIGHT
    ensures forall x, y :: 0 <= x < WIDTH && 0 <= y < HEIGHT ==>
      0 <= PixelIndex(WIDTH, x, y) < |pixels| && pixels[PixelIndex(WIDTH, x, y)] == SweepPixel(x, y, frame)
    ensures forall k :: 0 <= k < |pixels| ==> AlphaOf(pixels[k]) == OPAQUE
  {
    var writes;
    pixels, writes := Fill(WIDTH, HEIGHT, init, (x, y) => SweepPixel(x, y, frame));
    forall k | 0 <= k < |pixels|
      ensures AlphaOf(pixels[k]) == OPAQUE
    {
      IndexCovers(WIDTH, HEIGHT, k);
      var x, y := k % WIDTH, k / WIDTH;
      assert pixels[PixelIndex(WIDTH, x, y)] == SweepPixel(x, y, frame);
    }
  }
}

=== FILE: theme.dfy ===
/** The two themes of idle_sweep_only.c and the mouse-click toggle between
    them.

    The program compares `currentTheme.name` with `darkTheme.name`, which
    are the addresses of the string literals "Dark" and "Light"; the model gives
    the theme an enumerated name, which distinguishes the same two cases. */
module Theme {

  datatype ThemeName = Dark | Light

  /** `FColor` (lines 35-37). */
  datatype FColor = FColor(r: real, g: real, b: real, a: real)

  /** `Theme` (lines 39-44). */
  datatype Theme = Theme(name: ThemeName, accent: FColor, idleGain: real, idleIntensity: real)

  /** `darkTheme` (lines 46-51). */
  const DARK_THEME := Theme(Dark, FColor(0.43, 0.70, 1.0, 1.0), 1.6, 0.7)

  /** `lightTheme` (lines 53-58). */
  const LIGHT_THEME := Theme(Light, FColor(0.20, 0.48, 0.72, 1.0), 3.0, 1.0)

  /** `currentTheme` is only ever assigned one of the two templates. */
  predicate IsBuiltIn(theme: Theme)
  {
    theme == DARK_THEME || theme == LIGHT_THEME
  }

  /** A mouse click (lines 164-166): an instant swap to the other theme. */
  function Toggle(cur: Theme): (next: Theme)
    ensures IsBuiltIn(next)
    ensures next.name != cur.name
  {
    if cur.name == DARK_THEME.name then LIGHT_THEME else DARK_THEME
  }

  /** On the two templates the toggle is an involution. */
  lemma ToggleInvolution(theme: Theme)
    requires IsBuiltIn(theme)
    ensures Toggle(theme) != theme
    ensures Toggle(Toggle(theme)) == theme
  {
  }

  /** The theme after the clicks of one pass of the event loop. */
  function ToggleTimes(theme: Theme, clicks: nat): (r: Theme)
    ensures clicks > 0 ==> IsBuiltIn(r)
  {
    if clicks == 0 then theme else Toggle(ToggleTimes(theme, clicks - 1))
  }

  /** Only the parity of the number of clicks matters. */
  lemma {:induction false} ToggleTimesParity(theme: Theme, clicks: nat)
    requires IsBuiltIn(theme)
    ensures ToggleTimes(theme, clicks) == if clicks % 2 == 0 then theme else Toggle(theme)
  {
    if clicks > 0 {
      ToggleTimesParity(theme, clicks - 1);
      ToggleInvolution(theme);
    }
  }

  /** Which animation track feeds animR, animG and animB (lines 189-197). */
  function ChannelTracks(theme: Theme): (m: seq<int>)
    ensures IsTrackPermutation(m)
    ensures SelfInverse(m)
  {
    if theme.name == DARK_THEME.name then [2, 1, 0] else [0, 1, 2]
  }

  /** m sends the three channels to three distinct tracks. */
  predicate IsTrackPermutation(m: seq<int>)
  {
    && |m| == 3
    && (forall i :: 0 <= i < 3 ==> 0 <= m[i] < 3)
    && (forall i, j :: 0 <= i < j < 3 ==> m[i] != m[j])
  }

  /** Applying m twice gives back the channel. */
  predicate SelfInverse(m: seq<int>)
    requires IsTrackPermutation(m)
  {
    forall i :: 0 <= i < 3 ==> m[m[i]] == i
  }

  /** The two themes share the green track and exchange the red and blue
      ones. */
  lemma ThemesSwapRedAndBlue(theme: Theme)
    ensures var m, m' := ChannelTracks(theme), ChannelTracks(Toggle(theme));
      m[0] == m'[2] && m[1] == m'[1] && m[2] == m'[0]
  {
  }
}
